=== FILE: README.md ===
# Rotating log files — a Dafny model

This project models the core of a small Python logging utility, the class `Logs` in
`logs.py`. The class appends timestamped messages to three per-category files (info,
error, warning). It rotates a file once it reaches a size limit, and it prints the last
lines of a file, optionally filtered by a date substring.

The model works on an in-memory view of one category's files. That view is a finite map
from a slot to a content string. A slot is the active file (`Active`) or a numbered
backup (`Backup(i)`, with i ≥ 1). All operations are pure functions:

- `Rotation.Rotate` is `_rotate_file`. When the active file exists and has at least
  `maxSize` characters, it walks the backups from `maxBackups` down to 1. It deletes the
  top backup and renames every other existing backup `i` to `i + 1`. Then it renames the
  active file to backup 1. Renaming overwrites the target, as on POSIX systems.
- `Messages.Sanitize` is `_sanitize_message`. Each `\n` and each `\r` becomes one space.
  The result is stripped of surrounding whitespace and cut to 1000 characters.
- `Logger.Save` covers `save_info_log`, `save_error_log` and `save_warning_log`. They
  are one operation parametrised by `Logger.Category`. It sanitises the message, rotates
  the category's files, then appends `timestamp + " " + message + "\n"`. The timestamp
  is a parameter.
- `Logger.Show` covers the three `show_*_logs` methods. It reads the active file as
  `readlines` does (`Lines.ReadLines`). `Selection.Select` then keeps the lines that
  contain the date filter, and after that the last `last_n` lines, through a model of
  `deque(maxlen=last_n)`.

Modules: `Optional` (Option), `Slots` (slots, rename, the backup chain), `Rotation`,
`Messages`, `Lines` (readlines and `''.join`), `Selection`, `Logger`.

## Behaviour of the code worth noting

- With `max_backups == 0` the loop at logs.py:52 is empty. Line 60 still renames the
  active file to `.1`, replacing any earlier `.1`. So the old content is kept as one
  backup. `Rotation.RotateWithoutBackups` states the code's behaviour.
- `max_size` and `max_backups` are arbitrary integers in the code. A `max_size` of zero
  or less rotates every existing active file, even an empty one. A negative
  `max_backups` behaves like 0.
- With `max_backups` ≥ 1, backups numbered above it are never touched by rotation. So "at most
  `max_backups` backups exist" holds only if it already held. `Rotation.RotateKeepsBackupBound`
  states it in that form.

## Model

| member | source | states |
|---|---|---|
| `Slots.Rename` | logs.py:58-60 | `Path.rename` with POSIX overwrite: the target holds the source's content, the source is gone (unless it is the target), every other file is unchanged, and no new content appears. |
| `Rotation.Triggered` | logs.py:51 | Definition of the rotation condition: the active file exists and has at least `maxSize` characters. `Rotation.Rotate` shows rotation changes the files exactly when it holds. |
| `Rotation.Step` | logs.py:53-58 | One iteration of the walk at backup i. Backup i no longer exists afterwards. If it existed and i is not the configured maximum, backup i+1 now holds its content; otherwise backup i+1 is unchanged. Every other file is unchanged, and no new content appears. |
| `Rotation.Shift` | logs.py:52-58 | The top-down walk from backup k to 1: the active file is untouched and backup 1 ends up empty. Each backup j from 2 up to the highest number the walk writes (k+1, or the configured maximum) takes backup j-1's old content, and backups above that number keep theirs. No content appears that was not there before. |
| `Rotation.Rotate` | logs.py:49-60 | Rotation changes nothing exactly when the active file is missing or shorter than `maxSize`. Otherwise the active file disappears and backup 1 holds its content. Backup j (2 ≤ j ≤ maxBackups) holds old backup j-1 (missing stays missing), backups numbered 2 or higher and above maxBackups are unchanged, and every content after is one that existed before. |
| `Rotation.RotateIdempotent` | logs.py:51-60 | Rotating twice is the same as rotating once, since the first rotation removes the active file. |
| `Rotation.RotateShiftsChain` | logs.py:52-60 | With maxBackups = M ≥ 1, the chain active, .1, …, .M after rotation is [missing] followed by the old chain without its last element. So the old active, .1, …, .M-1 are exactly the new .1, …, .M, and only the old .M is lost. |
| `Rotation.RotateKeepsBackupBound` | logs.py:52-60 | With M ≥ 1, if no backup numbered above M existed before rotation, none exists after. |
| `Rotation.DefaultRotationKeepsFiveBackups` | logs.py:32-60 | At the constructor's defaults (1 MiB, five backups), a store with no backup numbered above 5 still has none after a rotation. |
| `Rotation.RotateWithoutBackups` | logs.py:52-60 | With maxBackups ≤ 0, a triggered rotation moves the active content to backup 1, overwriting it, and changes nothing else. |
| `Messages.ReplaceLineBreaks` | logs.py:65 | The length is unchanged and the result has no `\n` or `\r`. Each line break becomes exactly one space (so `\r\n` gives two) and every other character stays in place. |
| `Messages.Strip` | logs.py:66 | The result has whitespace at neither end. It is the piece of the input starting after the leading whitespace, with only whitespace after it. |
| `Messages.StripUnique` | logs.py:66 | Any whitespace-free-ended piece of s with only whitespace around it equals `Strip(s)`: stripping is fully characterised by its result's shape. |
| `Messages.Sanitize` | logs.py:61-67 | The result has at most 1000 characters and no `\n` or `\r`. It is a prefix of the replaced-then-stripped message, of length min(1000, that length), so it equals it when that has ≤ 1000 characters. If non-empty, it does not start with whitespace. |
| `Messages.SanitizeKeepsCleanMessage` | logs.py:61-67 | A message with no line break, no surrounding whitespace and at most 1000 characters is stored unchanged. |
| `Messages.SanitizeStableIff` | logs.py:65-67 | Sanitising a sanitised message again gives the same text if and only if the first result has no whitespace at either end. |
| `Messages.SanitizeNotIdempotent` | logs.py:65-67 | A concrete message of 999 letters, a space and a letter shows that sanitising twice differs from sanitising once: truncation leaves a trailing space. |
| `Lines.ReadLines` | logs.py:140 | Every line read is non-empty and has a `\n` only as its last character. Every line but the last ends in `\n`. |
| `Lines.Join` | logs.py:147 | Definition of `''.join(lines)`: the lines written one after another. `Lines.JoinReadLines` and `Lines.ReadJoin` relate it to `readlines`. |
| `Lines.JoinReadLines` | logs.py:147 | Joining the lines `readlines` returns gives back the file's content. |
| `Lines.ReadJoin` | logs.py:140 | A list of complete lines, joined and read back, is the same list. |
| `Lines.ReadLinesAppend` | logs.py:87-89 | Appending text to a file that ends at a line boundary leaves its old lines, followed by the appended text's lines. |
| `Lines.ReadLinesAtBoundary` | logs.py:140 | In a file that is empty or ends in `\n`, every line read is complete. |
| `Logger.SaveToFiles` | logs.py:83-89 | Without rotation, the active file becomes its old content (or nothing) plus the record, and every other file is unchanged. With rotation, the active file is exactly the record and backup 1 is the old active content. The other backups shift as in rotation. |
| `Logger.ActiveContent` | logs.py:87 | Definition of what append mode finds in the active file: its content, or nothing when it is missing, since opening with `'a'` creates it. `Logger.SaveToFiles` and `Logger.SaveAppendsLine` use it. |
| `Logger.Save` | logs.py:77-128 | Saving to one category acts on that category's files as `SaveToFiles` does, and leaves the other two categories unchanged. |
| `Logger.Record` | logs.py:88-89 | Definition of the line written for one message: timestamp, a space, the message and `\n`. `Logger.RecordIsOneLine` shows it is exactly one complete line that reads back as itself. |
| `Logger.RecordIsOneLine` | logs.py:84-89 | Given a timestamp without line breaks, the record is one complete line: its only `\n` is its last character, it has no `\r`, and it reads back as itself. |
| `Logger.RecordShape` | logs.py:84-89 | A record made from a timestamp and a message without line breaks is one complete line and contains no `\r`. |
| `Logger.SaveAppendsLine` | logs.py:83-89 | Reading the active file after a save gives the old lines followed by the record, or only the record right after a rotation. |
| `Logger.SavePreservesWellFormed` | logs.py:83-89 | If every file of the category consists of whole, `\r`-free lines, it still does after a save. |
| `Logger.SaveKeepsBackupBound` | logs.py:83-89 | With maxBackups ≥ 1, a save never creates a backup numbered above maxBackups. |
| `Logger.Show` | logs.py:130-149 | The viewer shows nothing exactly when the active file is missing. Otherwise the printed lines are a subsequence of the file's lines, in file order. With a non-empty filter, each contains it. With a positive `last_n`, there are at most `last_n` of them. With neither a filter nor a positive `last_n`, they join back to the whole file. |
| `Logger.ShowLatestAfterSave` | logs.py:138-145 | Right after a save, the viewer asked for the last line, unfiltered, shows exactly the record just written. |
| `Logger.SelectLastLine` | logs.py:144-145 | Taking the last line, unfiltered, of lines that end in x gives exactly [x]. |
| `Selection.Contains` | logs.py:142 | `sub in s` holds if and only if `sub` occurs in `s` at some position. |
| `Selection.FilterLines` | logs.py:141-142 | Every kept line contains the filter. A line is kept if and only if it is in the input and contains the filter. The result is a subsequence of the input. `Selection.FilterKeepsCounts` adds that repeated lines are all kept. |
| `Selection.FilterKeepsCounts` | logs.py:142 | Every line occurs in the filtered result exactly as often as in the input when it contains the filter, and not at all otherwise. |
| `Selection.FilterAppend` | logs.py:142 | Filtering a concatenation is the concatenation of the filtered parts, so the original order is kept. |
| `Selection.Filtered` | logs.py:141-142 | Definition of the `if filter_date:` step: the filter applies only when it is given and non-empty. The result is always a subsequence of the input. `Selection.Select` builds on it. |
| `Selection.Push` | logs.py:145 | `deque.append` on a deque bounded by maxlen never leaves more than maxlen items. `Selection.FeedKeepsLast` states which items it keeps. |
| `Selection.Feed` | logs.py:145 | Appending items one by one to a bounded deque never leaves more than maxlen items. |
| `Selection.Deque` | logs.py:145 | Definition of `deque(xs, maxlen=n)` as appending the items of xs one by one to an empty bounded deque. `Selection.DequeIsLastN` shows it holds exactly the last n items. |
| `Selection.FeedKeepsLast` | logs.py:145 | Appending items one by one to a deque holding at most maxlen items leaves the last maxlen items of everything it held or was given. |
| `Selection.DequeIsLastN` | logs.py:145 | `deque(xs, maxlen=n)` holds exactly the last min(n, len(xs)) items of xs, in order. |
| `Selection.Select` | logs.py:141-145 | With a non-empty filter, every returned line contains it. With a positive `last_n`, the result has min(last_n, number of filtered lines) lines and is the suffix of the filtered lines. Otherwise it is the filtered lines, and the input itself when there is also no filter. The result is always a subsequence of the input lines. |

## Left out

- Console output (`log`, `print`, logs.py:68-75 and logs.py:147) and the confirmation and error messages. These are pure I/O. `Logger.Show` returns the lines that would be printed.
- Directory creation (logs.py:43-47), and real `open`, `readlines`, `stat`, `rename` and `unlink` calls. The slot map stands in for them.
- `datetime.now()` and `strftime` (logs.py:84). The timestamp is a parameter. The line-structure lemmas require that it contains no `\n` or `\r`, which the `[%Y-%m-%d %H:%M:%S]` format guarantees.
- `OSError` handling (logs.py:91-92, 109-110, 127-128, 148-149). Renames are modelled with POSIX overwrite semantics, under which the rotation steps do not fail. On Windows the rename at logs.py:60 onto an existing `.1` raises, and the save is then dropped. A file that exists but cannot be read is not modelled either; `Logger.Show` only models the missing file.
- `str(message)` coercion of non-strings (logs.py:63-64). The message is a string.
- Text encoding. Contents are character strings, and a file's size is its number of characters. For non-ASCII text the UTF-8 byte count that `st_size` reports is larger.
- Universal-newline translation done by reading in text mode. `Lines.ReadLines` splits only at `\n`. `Logger.SavePreservesWellFormed` shows that files written by saves contain no `\r`, so the translation would change nothing on them.
- `Messages.IsSpace` lists the code points Python's `str.isspace` accepts. It is written out, not derived from the Unicode database.
- File-name construction: `f"{info}.{self.extension}"` with the default `".log"` gives `info_logs..log` (logs.py:35), and `with_suffix` has quirks (logs.py:53). Backups are slots, not path strings.
- `last_n` values that are not integers (Python truthiness of other types). `last_n` is an optional integer, and `filter_date` an optional string where the empty string means no filter.
- Logger.Save: assumes that the three category names give three different files, as the defaults do. The constructor (logs.py:35-37) does not check this. With equal names, two categories append to the same file, and each viewer then also prints the other category's records.
- Concurrency and locking. The source has none.

=== FILE: lines.dfy ===
/** Reading a log file back as lines (`f.readlines()`) and printing them again
    (`''.join(lines)`).  A line is a maximal run of characters up to and including a
    `\n`; the last line of a file that does not end in `\n` has none. */
module Lines {

  /** A line as `readlines` returns it: non-empty, and a `\n` can only be its last character. */
  predicate IsLine(l: string)
  {
    l != [] && forall i :: 0 <= i < |l| - 1 ==> l[i] != '\n'
  }

  /** A complete line: exactly one `\n`, at its end. */
  predicate IsTerminatedLine(l: string)
  {
    IsLine(l) && l[|l| - 1] == '\n'
  }

  /** A file whose every line is complete: empty, or ending in `\n`. */
  predicate EndsAtLineBoundary(s: string)
  {
    s == [] || s[|s| - 1] == '\n'
  }

  /** `''.join(lines)`. */
  function Join(lines: seq<string>): string
  {
    if lines == [] then [] else lines[0] + Join(lines[1..])
  }

  /** The length of the first line of `s`, its `\n` included. */
  function FirstLineLength(s: string): (n: nat)
    requires s != []
    ensures 1 <= n <= |s|
    ensures IsLine(s[..n])
    ensures n < |s| ==> s[n - 1] == '\n'
  {
    if s[0] == '\n' || |s| == 1 then 1
    else
      var n := 1 + FirstLineLength(s[1..]);
      assert s[..n] == [s[0]] + s[1..][..n - 1];
      n
  }

  /** `f.readlines()` on the content `s` of a file. */
  function ReadLines(s: string): (lines: seq<string>)
    ensures forall i :: 0 <= i < |lines| ==> IsLine(lines[i])
    ensures forall i :: 0 <= i < |lines| - 1 ==> IsTerminatedLine(lines[i])
    decreases |s|
  {
    if s == [] then []
    else
      var n := FirstLineLength(s);
      [s[..n]] + ReadLines(s[n..])
  }

  /** `readlines` takes the first line off the front and reads the rest the same way. */
  lemma ReadLinesUnfold(s: string)
    requires s != []
    ensures ReadLines(s) == [s[..FirstLineLength(s)]] + ReadLines(s[FirstLineLength(s)..])
  {
  }

  /** Joining what `readlines` returns is the first line followed by the join of the rest. */
  lemma JoinReadLinesUnfold(s: string)
    requires s != []
    ensures Join(ReadLines(s)) == s[..FirstLineLength(s)] + Join(ReadLines(s[FirstLineLength(s)..]))
  {
  }

  /** Round trip: printing the lines `readlines` returns gives back the file's content. */
  lemma {:induction false} JoinReadLines(s: string)
    ensures Join(ReadLines(s)) == s
    decreases |s|
  {
    if s != [] {
      var n := FirstLineLength(s);
      JoinReadLinesUnfold(s);
      JoinReadLines(s[n..]);
      assert s == s[..n] + s[n..];
    }
  }

  /** In a file that ends at a line boundary, every line `readlines` returns is complete. */
  lemma {:induction false} ReadLinesAtBoundary(s: string)
    requires EndsAtLineBoundary(s)
    ensures forall i :: 0 <= i < |ReadLines(s)| ==> IsTerminatedLine(ReadLines(s)[i])
    decreases |s|
  {
    if s != [] {
      var n := FirstLineLength(s);
      var lines := ReadLines(s);
      if n < |s| {
        assert s[n..][|s[n..]| - 1] == s[|s| - 1];
        ReadLinesAtBoundary(s[n..]);
        assert lines[1..] == ReadLines(s[n..]);
      } else {
        assert s[..n] == s;
        assert lines == [s];
      }
    }
  }

  /** A complete line in front of `s` is read back as one line, followed by the lines of `s`. */
  lemma ReadLinesAfterLine(l: string, s: string)
    requires IsTerminatedLine(l)
    ensures ReadLines(l + s) == [l] + ReadLines(s)
  {
    FirstLineAfterLine(l, s);
    assert (l + s)[..|l|] == l;
    assert (l + s)[|l|..] == s;
  }

  lemma {:induction false} FirstLineAfterLine(l: string, s: string)
    requires IsTerminatedLine(l)
    ensures FirstLineLength(l + s) == |l|
    decreases |l|
  {
    if |l| > 1 {
      assert (l + s)[1..] == l[1..] + s;
      assert l[0] != '\n';
      FirstLineAfterLine(l[1..], s);
    }
  }

  /** Round trip: a list of complete lines, written out and read back, is the same list. */
  lemma {:induction false} ReadJoin(lines: seq<string>)
    requires forall i :: 0 <= i < |lines| ==> IsTerminatedLine(lines[i])
    ensures ReadLines(Join(lines)) == lines
    decreases |lines|
  {
    if lines != [] {
      ReadJoin(lines[1..]);
      ReadLinesAfterLine(lines[0], Join(lines[1..]));
    }
  }

  /** Appending to a file that ends at a line boundary adds the appended text's lines,
      in order, after the lines already there. */
  lemma {:induction false} ReadLinesAppend(s: string, t: string)
    requires EndsAtLineBoundary(s)
    ensures ReadLines(s + t) == ReadLines(s) + ReadLines(t)
    decreases |s|
  {
    if s == [] {
      assert s + t == t;
    } else {
      var n := FirstLineLength(s);
      var line, rest := s[..n], s[n..];
      FirstLineBeforeAppend(s, t);
      ReadLinesUnfold(s);
      ReadLinesAppend(rest, t);
      ConsAssoc(line, ReadLines(rest), ReadLines(t));
    }
  }

  lemma ConsAssoc<T>(x: T, a: seq<T>, b: seq<T>)
    ensures [x] + (a + b) == ([x] + a) + b
  {
  }

  /** The first line of a file ending at a line boundary is complete, so text appended
      to the file does not change it. */
  lemma FirstLineBeforeAppend(s: string, t: string)
    requires s != [] && EndsAtLineBoundary(s)
    ensures var n := FirstLineLength(s);
      ReadLines(s + t) == [s[..n]] + ReadLines(s[n..] + t) && EndsAtLineBoundary(s[n..])
  {
    var n := FirstLineLength(s);
    var line, rest := s[..n], s[n..];
    assert line[n - 1] == s[n - 1];
    assert s + t == line + (rest + t);
    ReadLinesAfterLine(line, rest + t);
    assert rest != [] ==> rest[|rest| - 1] == s[|s| - 1];
  }
}

=== FILE: logger.dfy ===
/** Saving one message (`Logs.save_info_log`, `save_error_log`, `save_warning_log`).

    The three methods differ only in the file they write, so they are one operation
    parametrised by the category: sanitise the message, rotate the category's files,
    then append `timestamp + " " + message + "\n"` to the active file (creating it when
    missing).  The timestamp, which the source reads from the clock, is a parameter. */
module Logger {
  import opened Optional
  import opened Slots
  import opened Rotation
  import opened Messages
  import opened Lines
  import opened Selection

  /** The three independent log streams. */
  datatype Category = Info | Error | Warning

  /** The files of all three categories. */
  datatype Store = Store(info: Files, error: Files, warning: Files)
  {
    function Get(c: Category): Files
    {
      match c
      case Info => info
      case Error => error
      case Warning => warning
    }

    function Put(c: Category, fs: Files): (st: Store)
      ensures st.Get(c) == fs
      ensures forall d :: d != c ==> st.Get(d) == Get(d)
    {
      match c
      case Info => this.(info := fs)
      case Error => this.(error := fs)
      case Warning => this.(warning := fs)
    }
  }

  /** What appending reads as the active file's current content: opening in append mode
      creates a missing file empty. */
  function ActiveContent(fs: Files): string
  {
    if Active in fs then fs[Active] else []
  }

  /** The line written for one message. */
  function Record(timestamp: string, message: string): string
  {
    timestamp + " " + message + "\n"
  }

  /** The shared body of the `save_*_log` methods, on one category's files. */
  function SaveToFiles(cfg: Config, fs: Files, message: string, timestamp: string): (r: Files)
    ensures Active in r
    ensures !Triggered(cfg, fs) ==>
      && r[Active] == ActiveContent(fs) + Record(timestamp, Sanitize(message))
      && forall s :: s != Active ==> Lookup(r, s) == Lookup(fs, s)
    ensures Triggered(cfg, fs) ==>
      && r[Active] == Record(timestamp, Sanitize(message))
      && Backup(1) in r && r[Backup(1)] == fs[Active]
      && (forall j: int :: 2 <= j <= cfg.maxBackups ==> Lookup(r, Backup(j)) == Lookup(fs, Backup(j - 1)))
      && (forall j: int :: 2 <= j && cfg.maxBackups < j ==> Lookup(r, Backup(j)) == Lookup(fs, Backup(j)))
  {
    var clean := Sanitize(message);
    var rotated := Rotate(cfg, fs);
    rotated[Active := ActiveContent(rotated) + Record(timestamp, clean)]
  }

  /** `save_<category>_log(message)` with the clock reading `timestamp`: only the
      category's own files change. */
  function Save(cfg: Config, st: Store, c: Category, message: string, timestamp: string): (r: Store)
    ensures r.Get(c) == SaveToFiles(cfg, st.Get(c), message, timestamp)
    ensures forall d :: d != c ==> r.Get(d) == st.Get(d)
  {
    st.Put(c, SaveToFiles(cfg, st.Get(c), message, timestamp))
  }

  /** The text of a log file as `Save` leaves it: whole lines, and no carriage return
      that reading in text mode would turn into a line break. */
  predicate IsLogText(s: string)
  {
    EndsAtLineBoundary(s) && forall i :: 0 <= i < |s| ==> s[i] != '\r'
  }

  /** Every file of a category holds log text. */
  ghost predicate WellFormed(fs: Files)
  {
    forall s :: s in fs ==> IsLogText(fs[s])
  }

  /** A record built from two pieces without line breaks is one complete line with no `\r`. */
  lemma RecordShape(timestamp: string, clean: string)
    requires NoLineBreak(timestamp) && NoLineBreak(clean)
    ensures IsTerminatedLine(Record(timestamp, clean)) && IsLogText(Record(timestamp, clean))
  {
  }

  /** Provided the timestamp has no line break, a record is exactly one complete line:
      its only `\n` is the last character, and it has no `\r`. */
  lemma RecordIsOneLine(timestamp: string, message: string)
    requires NoLineBreak(timestamp)
    ensures var rec := Record(timestamp, Sanitize(message));
      IsTerminatedLine(rec) && IsLogText(rec) && ReadLines(rec) == [rec]
  {
    var rec := Record(timestamp, Sanitize(message));
    RecordShape(timestamp, Sanitize(message));
    ReadLinesAfterLine(rec, []);
    assert rec + [] == rec;
  }

  /** Saving adds the record as the last line of the active file: after the old lines
      when no rotation happened, and as the only line right after a rotation. */
  lemma SaveAppendsLine(cfg: Config, fs: Files, message: string, timestamp: string)
    requires NoLineBreak(timestamp) && IsLogText(ActiveContent(fs))
    ensures var rec := Record(timestamp, Sanitize(message));
      ReadLines(SaveToFiles(cfg, fs, message, timestamp)[Active])
        == (if Triggered(cfg, fs) then [] else ReadLines(ActiveContent(fs))) + [rec]
  {
    var rec := Record(timestamp, Sanitize(message));
    RecordIsOneLine(timestamp, message);
    if !Triggered(cfg, fs) {
      ReadLinesAppend(ActiveContent(fs), rec);
    }
  }

  /** Log text followed by a non-empty piece of log text is log text. */
  lemma AppendLogText(a: string, b: string)
    requires IsLogText(a) && IsLogText(b) && b != []
    ensures IsLogText(a + b)
  {
  }

  /** Saving keeps every file of the category made of whole, carriage-return-free lines. */
  lemma SavePreservesWellFormed(cfg: Config, fs: Files, message: string, timestamp: string)
    requires NoLineBreak(timestamp) && WellFormed(fs)
    ensures WellFormed(SaveToFiles(cfg, fs, message, timestamp))
  {
    var rec := Record(timestamp, Sanitize(message));
    RecordIsOneLine(timestamp, message);
    var rotated := Rotate(cfg, fs);
    assert WellFormed(rotated) by {
      forall s | s in rotated ensures IsLogText(rotated[s]) {
        assert rotated[s] in fs.Values;
      }
    }
    AppendLogText(ActiveContent(rotated), rec);
  }

  /** With at least one backup configured, saving never leaves more than `maxBackups`
      backups when that held before. */
  lemma SaveKeepsBackupBound(cfg: Config, fs: Files, message: string, timestamp: string)
    requires cfg.maxBackups >= 1 && WithinBackups(fs, cfg.maxBackups)
    ensures WithinBackups(SaveToFiles(cfg, fs, message, timestamp), cfg.maxBackups)
  {
  }

  /** `show_<category>_logs(last_n, filter_date)`: the lines it prints, or None when the
      category's active file cannot be opened (the source then reports the error on the
      console and prints no lines). */
  function Show(st: Store, c: Category, lastN: Option<int>, filterDate: Option<string>): (r: Option<seq<string>>)
    ensures r.None? <==> Active !in st.Get(c)
    ensures r.Some? && (filterDate.None? || filterDate.value == []) && !(lastN.Some? && lastN.value > 0) ==>
      Join(r.value) == st.Get(c)[Active]
    ensures r.Some? ==> IsSubsequence(r.value, ReadLines(st.Get(c)[Active]))
    ensures r.Some? && filterDate.Some? && filterDate.value != [] ==>
      forall i :: 0 <= i < |r.value| ==> Contains(r.value[i], filterDate.value)
    ensures r.Some? && lastN.Some? && lastN.value > 0 ==> |r.value| <= lastN.value
  {
    var fs := st.Get(c);
    if Active !in fs then None
    else
      JoinReadLines(fs[Active]);
      Some(Select(ReadLines(fs[Active]), filterDate, lastN))
  }

  /** Asking the viewer for the last line, unfiltered, of lines ending in `x` gives `x`. */
  lemma SelectLastLine(lines: seq<string>, x: string)
    ensures Select(lines + [x], None, Some(1)) == [x]
  {
  }

  /** Right after a save, asking the viewer for the last line, unfiltered, shows exactly
      the record just written. */
  lemma ShowLatestAfterSave(cfg: Config, st: Store, c: Category, message: string, timestamp: string)
    requires NoLineBreak(timestamp) && IsLogText(ActiveContent(st.Get(c)))
    ensures Show(Save(cfg, st, c, message, timestamp), c, Some(1), None)
      == Some([Record(timestamp, Sanitize(message))])
  {
    var fs := st.Get(c);
    var rec := Record(timestamp, Sanitize(message));
    var saved := SaveToFiles(cfg, fs, message, timestamp);
    SaveAppendsLine(cfg, fs, message, timestamp);
    SelectLastLine(if Triggered(cfg, fs) then [] else ReadLines(ActiveContent(fs)), rec);
    assert Save(cfg, st, c, message, timestamp).Get(c) == saved;
  }
}

=== FILE: messages.dfy ===
/** Message sanitising (`Logs._sanitize_message`): every `\n` and every `\r` becomes
    one space, the result is stripped of surrounding whitespace, and the first 1000
    characters are kept. */
module Messages {

  /** The number of characters a stored message keeps. */
  const MaxMessageLength: nat := 1000

  /** The characters Python's `str.isspace` accepts, which `str.strip()` removes. */
  predicate IsSpace(c: char)
  {
    var n := c as int;
    || n == 0x20 || 0x09 <= n <= 0x0D || 0x1C <= n <= 0x1F
    || n == 0x85 || n == 0xA0 || n == 0x1680 || 0x2000 <= n <= 0x200A
    || n == 0x2028 || n == 0x2029 || n == 0x202F || n == 0x205F || n == 0x3000
  }

  /** The two characters that would split one entry over several lines. */
  predicate IsLineBreak(c: char)
  {
    c == '\n' || c == '\r'
  }

  predicate NoLineBreak(s: string)
  {
    forall i :: 0 <= i < |s| ==> !IsLineBreak(s[i])
  }

  /** Neither end of `s` is whitespace. */
  predicate Trimmed(s: string)
  {
    s == [] || (!IsSpace(s[0]) && !IsSpace(s[|s| - 1]))
  }

  /** `r` sits at offset `a` of `s` with only whitespace before and after it. */
  ghost predicate Margins(s: string, a: int, r: string)
  {
    && 0 <= a <= |s| - |r|
    && (forall i :: 0 <= i < |r| ==> s[a + i] == r[i])
    && (forall i :: 0 <= i < a ==> IsSpace(s[i]))
    && (forall i :: a + |r| <= i < |s| ==> IsSpace(s[i]))
  }

  /** `str.replace(from, to)` for single characters. */
  function ReplaceChar(s: string, from: char, to: char): (r: string)
    ensures |r| == |s|
    ensures forall i :: 0 <= i < |s| && s[i] == from ==> r[i] == to
    ensures forall i :: 0 <= i < |s| && s[i] != from ==> r[i] == s[i]
  {
    if s == [] then []
    else [if s[0] == from then to else s[0]] + ReplaceChar(s[1..], from, to)
  }

  /** `.replace('\n', ' ').replace('\r', ' ')`: each line break becomes exactly one space
      (so `"\r\n"` becomes two), every other character is kept in place. */
  function ReplaceLineBreaks(s: string): (r: string)
    ensures |r| == |s|
    ensures NoLineBreak(r)
    ensures forall i :: 0 <= i < |s| && IsLineBreak(s[i]) ==> r[i] == ' '
    ensures forall i :: 0 <= i < |s| && !IsLineBreak(s[i]) ==> r[i] == s[i]
  {
    ReplaceChar(ReplaceChar(s, '\n', ' '), '\r', ' ')
  }

  /** The number of whitespace characters `s` starts with. */
  function LeadingSpaces(s: string): (n: nat)
    ensures n <= |s|
    ensures forall i :: 0 <= i < n ==> IsSpace(s[i])
    ensures n < |s| ==> !IsSpace(s[n])
  {
    if s == [] || !IsSpace(s[0]) then 0
    else
      1 + LeadingSpaces(s[1..])
  }

  /** The number of whitespace characters `s` ends with. */
  function TrailingSpaces(s: string): (n: nat)
    ensures n <= |s|
    ensures forall i :: |s| - n <= i < |s| ==> IsSpace(s[i])
    ensures n < |s| ==> !IsSpace(s[|s| - n - 1])
  {
    if s == [] || !IsSpace(s[|s| - 1]) then 0
    else
      1 + TrailingSpaces(s[..|s| - 1])
  }

  /** `str.strip()`: the piece of `s` left after removing leading, then trailing whitespace. */
  function Strip(s: string): (r: string)
    ensures Trimmed(r)
    ensures Margins(s, LeadingSpaces(s), r)
  {
    var a := LeadingSpaces(s);
    var rest := s[a..];
    var b := TrailingSpaces(rest);
    rest[..|rest| - b]
  }

  /** `_sanitize_message` on a string. */
  function Sanitize(message: string): (r: string)
    ensures |r| <= MaxMessageLength
    ensures NoLineBreak(r)
    ensures r <= Strip(ReplaceLineBreaks(message))
    ensures |r| == if |Strip(ReplaceLineBreaks(message))| <= MaxMessageLength
                   then |Strip(ReplaceLineBreaks(message))| else MaxMessageLength
    ensures r != [] ==> !IsSpace(r[0])
  {
    var stripped := Strip(ReplaceLineBreaks(message));
    if |stripped| <= MaxMessageLength then stripped else stripped[..MaxMessageLength]
  }

  /** Stripping is determined by its result's shape: the only piece of `s` that has
      whitespace on neither end and nothing but whitespace around it is `Strip(s)`. */
  lemma StripUnique(s: string, a: int, x: string)
    requires Trimmed(x) && Margins(s, a, x)
    ensures Strip(s) == x
  {
  }

  /** A line-break-free string is left as it is by the replacement step. */
  lemma ReplaceKeepsUnbroken(s: string)
    requires NoLineBreak(s)
    ensures ReplaceLineBreaks(s) == s
  {
  }

  /** A message that already has no line break, no surrounding whitespace and at most 1000
      characters is stored exactly as given. */
  lemma SanitizeKeepsCleanMessage(message: string)
    requires NoLineBreak(message) && Trimmed(message) && |message| <= MaxMessageLength
    ensures Sanitize(message) == message
  {
    ReplaceKeepsUnbroken(message);
    StripUnique(message, 0, message);
  }

  /** Sanitising a sanitised message again changes it exactly when the first pass left
      whitespace at its end, which only truncation can do. */
  lemma SanitizeStableIff(message: string)
    ensures Sanitize(Sanitize(message)) == Sanitize(message) <==> Trimmed(Sanitize(message))
  {
    var r := Sanitize(message);
    ReplaceKeepsUnbroken(r);
    if Trimmed(r) {
      SanitizeKeepsCleanMessage(r);
    } else {
      assert Trimmed(Sanitize(r));
    }
  }

  /** Sanitising is not idempotent: 999 letters, a space and a letter lose their last
      character to truncation and keep a trailing space, which a second pass strips. */
  lemma SanitizeNotIdempotent()
    ensures var m := seq(999, _ => 'a') + " b"; Sanitize(Sanitize(m)) != Sanitize(m)
  {
    var m := seq(999, _ => 'a') + " b";
    assert m[0] == 'a' && m[|m| - 1] == 'b';
    assert NoLineBreak(m);
    ReplaceKeepsUnbroken(m);
    StripUnique(m, 0, m);
    var r := Sanitize(m);
    assert r == m[..MaxMessageLength];
    assert r[|r| - 1] == m[999] == ' ';
    SanitizeStableIff(m);
  }
}

=== FILE: optional.dfy ===
/** The conventional Some/None datatype, used for a file that may be missing and for
    the optional arguments of the log viewers. */
module Optional {

  datatype Option<+T> = None | Some(value: T)
}

=== FILE: rotation.dfy ===
/** Size-triggered rotation of one category's files (`Logs._rotate_file`).

    When the active file exists and has reached `maxSize`, the backups are walked from
    number `maxBackups` down to 1: the backup numbered `maxBackups` is deleted, every
    other existing backup `i` is renamed to `i + 1`; then the active file is renamed to
    backup 1.  Missing backups are skipped. */
module Rotation {
  import opened Optional
  import opened Slots

  /** The rotation settings of a logger.  Both are arbitrary integers, as in the source:
      a `maxSize` of zero or less rotates every existing active file, and a
      `maxBackups` of zero or less makes the walk over the backups empty. */
  datatype Config = Config(maxSize: int, maxBackups: int)

  /** The defaults: 1 MiB and five backups. */
  const DefaultConfig: Config := Config(1024 * 1024, 5)

  /** Rotation happens exactly when the active file exists and is at least `maxSize` long. */
  predicate Triggered(cfg: Config, fs: Files)
  {
    Active in fs && |fs[Active]| >= cfg.maxSize
  }

  /** One iteration of the walk, at backup number `i`, with `m` backups configured. */
  function Step(fs: Files, i: Index, m: int): (r: Files)
    ensures Backup(i) !in r
    ensures Backup(i) in fs && i != m ==> Backup(i + 1) in r && r[Backup(i + 1)] == fs[Backup(i)]
    ensures Backup(i) !in fs || i == m ==> Lookup(r, Backup(i + 1)) == Lookup(fs, Backup(i + 1))
    ensures forall s :: s != Backup(i) && s != Backup(i + 1) ==> Lookup(r, s) == Lookup(fs, s)
    ensures r.Values <= fs.Values
  {
    if Backup(i) !in fs then fs
    else if i == m then fs - {Backup(i)}
    else Rename(fs, Backup(i), Backup(i + 1))
  }

  /** The highest backup number the walk from `k` down to 1 can write. */
  function Top(k: int, m: int): int
  {
    if k + 1 < m then k + 1 else m
  }

  /** The walk from backup number `k` down to 1, with `m` backups configured.  The source
      starts it at `k == m`; below that, backup `k + 1` has already been moved away. */
  function Shift(fs: Files, k: int, m: int): (r: Files)
    requires k <= m
    requires k == m || k < 0 || Backup(k + 1) !in fs
    ensures k <= 0 ==> r == fs
    ensures Lookup(r, Active) == Lookup(fs, Active)
    ensures k >= 1 ==> Backup(1) !in r
    ensures forall j: int :: 2 <= j <= Top(k, m) ==> Lookup(r, Backup(j)) == Lookup(fs, Backup(j - 1))
    ensures forall j: int :: 1 <= j && Top(k, m) < j ==> Lookup(r, Backup(j)) == Lookup(fs, Backup(j))
    ensures r.Values <= fs.Values
    decreases k
  {
    if k < 1 then fs
    else Shift(Step(fs, k, m), k - 1, m)
  }

  /** `_rotate_file` on one category's files. */
  function Rotate(cfg: Config, fs: Files): (r: Files)
    ensures !Triggered(cfg, fs) <==> r == fs
    ensures Triggered(cfg, fs) ==> Active !in r && Backup(1) in r && r[Backup(1)] == fs[Active]
    ensures Triggered(cfg, fs) ==>
      forall j: int :: 2 <= j <= cfg.maxBackups ==> Lookup(r, Backup(j)) == Lookup(fs, Backup(j - 1))
    ensures Triggered(cfg, fs) ==>
      forall j: int :: 2 <= j && cfg.maxBackups < j ==> Lookup(r, Backup(j)) == Lookup(fs, Backup(j))
    ensures r.Values <= fs.Values
  {
    if Triggered(cfg, fs) then
      var shifted := Shift(fs, cfg.maxBackups, cfg.maxBackups);
      assert Lookup(shifted, Active) == Lookup(fs, Active);
      Rename(shifted, Active, Backup(1))
    else
      fs
  }

  /** Rotating a second time changes nothing: the first rotation removed the active file. */
  lemma RotateIdempotent(cfg: Config, fs: Files)
    ensures Rotate(cfg, Rotate(cfg, fs)) == Rotate(cfg, fs)
  {
  }

  /** With at least one backup configured, rotation shifts the chain active, `.1`, ...,
      `.M` one place towards the old end: the active slot becomes empty and only the
      content of `.M` is lost. */
  lemma RotateShiftsChain(cfg: Config, fs: Files)
    requires Triggered(cfg, fs) && cfg.maxBackups >= 1
    ensures Chain(Rotate(cfg, fs), cfg.maxBackups) == [None] + Chain(fs, cfg.maxBackups)[..cfg.maxBackups]
    ensures Chain(Rotate(cfg, fs), cfg.maxBackups)[1..] == Chain(fs, cfg.maxBackups - 1)
  {
  }

  /** With at least one backup configured, rotation never creates a backup numbered
      above the limit, so at most `maxBackups` backups exist if that held before. */
  lemma RotateKeepsBackupBound(cfg: Config, fs: Files)
    requires cfg.maxBackups >= 1 && WithinBackups(fs, cfg.maxBackups)
    ensures WithinBackups(Rotate(cfg, fs), cfg.maxBackups)
  {
  }

  /** With no backups configured, the active file still becomes backup 1, replacing
      whatever backup 1 held; every other file is left alone. */
  lemma RotateWithoutBackups(cfg: Config, fs: Files)
    requires Triggered(cfg, fs) && cfg.maxBackups <= 0
    ensures Rotate(cfg, fs) == (fs - {Active})[Backup(1) := fs[Active]]
  {
  }

  /** At the default settings, a store holding at most five backups still holds at most
      five after any rotation. */
  lemma DefaultRotationKeepsFiveBackups(fs: Files)
    requires WithinBackups(fs, 5)
    ensures WithinBackups(Rotate(DefaultConfig, fs), 5)
  {
  }
}

=== FILE: selection.dfy ===
/** Choosing which lines the log viewers (`Logs.show_*_logs`) print: keep the lines that
    contain `filter_date` when it is given and non-empty, then, when `last_n` is given and
    positive, keep only the last `last_n` of those, by feeding them through a
    `deque(maxlen=last_n)`. */
module Selection {
  import opened Optional

  /** `sub` occurs in `s` at position `i`. */
  ghost predicate OccursAt(sub: string, s: string, i: int)
  {
    0 <= i <= |s| - |sub| && s[i..i + |sub|] == sub
  }

  /** Python's `sub in s` on strings. */
  function Contains(s: string, sub: string): (b: bool)
    ensures b <==> exists i :: OccursAt(sub, s, i)
    decreases |s|
  {
    if |s| < |sub| then false
    else if sub <= s then
      assert OccursAt(sub, s, 0);
      true
    else
      var b := Contains(s[1..], sub);
      assert forall i :: OccursAt(sub, s[1..], i) ==> OccursAt(sub, s, i + 1);
      assert forall i :: OccursAt(sub, s, i) ==> i >= 1 && OccursAt(sub, s[1..], i - 1) by {
        forall i | OccursAt(sub, s, i) ensures i >= 1 && OccursAt(sub, s[1..], i - 1) {
          assert i != 0 by { assert s[0..|sub|] == s[..|sub|]; }
          assert s[1..][i - 1..i - 1 + |sub|] == s[i..i + |sub|];
        }
      }
      b
  }

  /** `a` is obtained from `b` by deleting elements: the elements of `a` occur in `b` in
      the same order. */
  predicate IsSubsequence<T(==)>(a: seq<T>, b: seq<T>)
    decreases |b|
  {
    a == [] || (b != [] && ((a[0] == b[0] && IsSubsequence(a[1..], b[1..])) || IsSubsequence(a, b[1..])))
  }

  /** `[line for line in lines if sub in line]`. */
  function FilterLines(lines: seq<string>, sub: string): (r: seq<string>)
    ensures forall i :: 0 <= i < |r| ==> Contains(r[i], sub)
    ensures forall l :: l in r <==> l in lines && Contains(l, sub)
    ensures IsSubsequence(r, lines)
    decreases |lines|
  {
    if lines == [] then []
    else if Contains(lines[0], sub) then
      var rest := FilterLines(lines[1..], sub);
      assert lines == [lines[0]] + lines[1..];
      assert ([lines[0]] + rest)[1..] == rest;
      [lines[0]] + rest
    else
      assert lines == [lines[0]] + lines[1..];
      FilterLines(lines[1..], sub)
  }

  /** Filtering keeps every occurrence: a line containing the filter appears in the result
      as often as in the input, and any other line not at all. */
  lemma {:induction false} FilterKeepsCounts(lines: seq<string>, sub: string)
    ensures forall l :: multiset(FilterLines(lines, sub))[l] == if Contains(l, sub) then multiset(lines)[l] else 0
    decreases |lines|
  {
    if lines != [] {
      FilterKeepsCounts(lines[1..], sub);
      assert lines == [lines[0]] + lines[1..];
    }
  }

  /** `deque.append` on a deque bounded by `maxlen`: the new item goes on the right and a
      deque that grows past `maxlen` drops its leftmost item. */
  function Push<T>(q: seq<T>, x: T, maxlen: nat): (r: seq<T>)
    requires |q| <= maxlen
    ensures |r| <= maxlen
  {
    var grown := q + [x];
    if |grown| > maxlen then grown[1..] else grown
  }

  /** Appending every item of `xs`, left to right, to the bounded deque `q`. */
  function Feed<T>(q: seq<T>, xs: seq<T>, maxlen: nat): (r: seq<T>)
    requires |q| <= maxlen
    ensures |r| <= maxlen
    decreases |xs|
  {
    if xs == [] then q else Feed(Push(q, xs[0], maxlen), xs[1..], maxlen)
  }

  /** `deque(xs, maxlen=n)`. */
  function Deque<T>(xs: seq<T>, maxlen: nat): seq<T>
  {
    Feed([], xs, maxlen)
  }

  /** The last `n` items of `s`, or all of them when it has fewer. */
  function LastN<T>(s: seq<T>, n: nat): (r: seq<T>)
    ensures |r| == if |s| < n then |s| else n
  {
    if |s| < n then s else s[|s| - n..]
  }

  lemma LastNOfAppend<T>(s: seq<T>, t: seq<T>, n: nat)
    ensures LastN(LastN(s, n) + t, n) == LastN(s + t, n)
  {
  }

  /** One append to a bounded deque keeps the last `maxlen` items. */
  lemma PushIsLastN<T>(q: seq<T>, x: T, maxlen: nat)
    requires |q| <= maxlen
    ensures Push(q, x, maxlen) == LastN(q + [x], maxlen)
  {
  }

  /** Feeding a deque that holds no more than `maxlen` items keeps the last `maxlen` items
      of everything it was given. */
  lemma {:induction false} FeedKeepsLast<T>(q: seq<T>, xs: seq<T>, maxlen: nat)
    requires |q| <= maxlen
    ensures Feed(q, xs, maxlen) == LastN(q + xs, maxlen)
    decreases |xs|
  {
    if xs == [] {
      assert q + xs == q;
    } else {
      var grown := q + [xs[0]];
      PushIsLastN(q, xs[0], maxlen);
      FeedKeepsLast(Push(q, xs[0], maxlen), xs[1..], maxlen);
      LastNOfAppend(grown, xs[1..], maxlen);
      assert grown + xs[1..] == q + xs;
    }
  }

  /** A bounded deque built from `xs` holds exactly the last `maxlen` items of `xs`, in
      their original order. */
  lemma DequeIsLastN<T>(xs: seq<T>, maxlen: nat)
    ensures Deque(xs, maxlen) == LastN(xs, maxlen)
  {
    FeedKeepsLast([], xs, maxlen);
    assert [] + xs == xs;
  }

  /** Deleting a prefix of a subsequence leaves a subsequence. */
  lemma {:induction false} SuffixOfSubsequence<T>(a: seq<T>, b: seq<T>, k: nat)
    requires IsSubsequence(a, b) && k <= |a|
    ensures IsSubsequence(a[k..], b)
    decreases |b|
  {
    if a != [] && k > 0 {
      if a[0] == b[0] && IsSubsequence(a[1..], b[1..]) {
        SuffixOfSubsequence(a[1..], b[1..], k - 1);
        assert a[1..][k - 1..] == a[k..];
      } else {
        SuffixOfSubsequence(a, b[1..], k);
      }
    }
  }

  /** Every sequence is a subsequence of itself. */
  lemma {:induction false} SubsequenceOfSelf<T>(a: seq<T>)
    ensures IsSubsequence(a, a)
    decreases |a|
  {
    if a != [] {
      SubsequenceOfSelf(a[1..]);
    }
  }

  /** The filtering step of the viewers: applied only when the filter is given and non-empty. */
  function Filtered(lines: seq<string>, filterDate: Option<string>): (r: seq<string>)
    ensures IsSubsequence(r, lines)
  {
    if filterDate.Some? && filterDate.value != [] then FilterLines(lines, filterDate.value)
    else
      SubsequenceOfSelf(lines);
      lines
  }

  /** The lines `show_*_logs(last_n, filter_date)` prints, from the file's `lines`. */
  function Select(lines: seq<string>, filterDate: Option<string>, lastN: Option<int>): (r: seq<string>)
    ensures filterDate.Some? && filterDate.value != [] ==>
      forall i :: 0 <= i < |r| ==> Contains(r[i], filterDate.value)
    ensures lastN.Some? && lastN.value > 0 ==>
      && |r| == (if |Filtered(lines, filterDate)| < lastN.value then |Filtered(lines, filterDate)| else lastN.value)
      && r == Filtered(lines, filterDate)[|Filtered(lines, filterDate)| - |r|..]
    ensures !(lastN.Some? && lastN.value > 0) ==> r == Filtered(lines, filterDate)
    ensures (filterDate.None? || filterDate.value == []) && !(lastN.Some? && lastN.value > 0) ==> r == lines
    ensures IsSubsequence(r, lines)
  {
    var filtered := Filtered(lines, filterDate);
    if lastN.Some? && lastN.value > 0 then
      var r := Deque(filtered, lastN.value);
      DequeIsLastN(filtered, lastN.value);
      SuffixOfSubsequence(filtered, lines, |filtered| - |r|);
      r
    else
      filtered
  }

  /** Filtering distributes over concatenation, so it keeps the lines' original order. */
  lemma {:induction false} FilterAppend(a: seq<string>, b: seq<string>, sub: string)
    ensures FilterLines(a + b, sub) == FilterLines(a, sub) + FilterLines(b, sub)
    decreases |a|
  {
    if a == [] {
      assert a + b == b;
    } else {
      assert (a + b)[1..] == a[1..] + b;
      FilterAppend(a[1..], b, sub);
    }
  }
}

=== FILE: slots.dfy ===
/** The files of one log category, seen as a finite map from slot to content.

    A category `info` owns the active file `info.log` and the backups `info.log.1`,
    `info.log.2`, ... (`.1` is the newest backup).  A slot that is not a key of the map
    is a file that does not exist.  Contents are character sequences and a file's size
    is its number of characters. */
module Slots {
  import opened Optional

  /** Backup numbers start at 1. */
  type Index = i: int | 1 <= i witness 1

  /** A file of one category: the active file, or the backup with the given number. */
  datatype Slot = Active | Backup(index: Index)

  /** The existing files of one category and their contents. */
  type Files = map<Slot, string>

  /** The content of slot `s`, or None when that file does not exist. */
  function Lookup(fs: Files, s: Slot): Option<string>
  {
    if s in fs then Some(fs[s]) else None
  }

  /** Renaming on a POSIX file system: `dst` is replaced by the content of `src`
      (whether or not it existed) and `src` disappears. */
  function Rename(fs: Files, src: Slot, dst: Slot): (r: Files)
    requires src in fs
    ensures src != dst ==> src !in r
    ensures dst in r && r[dst] == fs[src]
    ensures forall s :: s != src && s != dst ==> Lookup(r, s) == Lookup(fs, s)
    ensures r.Values <= fs.Values
  {
    (fs - {src})[dst := fs[src]]
  }

  /** The slot at position `i` of the chain active, `.1`, `.2`, ... */
  function ChainSlot(i: nat): Slot
  {
    if i == 0 then Active else Backup(i)
  }

  /** The contents of the active file followed by backups 1 to n, newest first. */
  function Chain(fs: Files, n: nat): (c: seq<Option<string>>)
    ensures |c| == n + 1
  {
    seq(n + 1, i requires 0 <= i <= n => Lookup(fs, ChainSlot(i)))
  }

  /** No backup numbered above `m` exists. */
  ghost predicate WithinBackups(fs: Files, m: int)
  {
    forall j: Index :: Backup(j) in fs ==> j <= m
  }
}
